=== FILE: README.md ===
# XOneRenameWindow — a Dafny model of the scoped-window rename command

The `xone` Visual Studio extension adds one menu command. It opens a new
scoped Solution Explorer window through a host command. Then it walks every
open window of the explorer kind (`{3AE79031-E1BC-11D0-8F78-00A0C9110057}`).
For each window whose caption does not already end with the marker (a plain
space, `Char.ConvertFromUtf32(32)`), it does three things:

1. It takes the first element of the window's `UIHierarchy`.
2. It builds a caption from that element's name: the name is split on `.`,
   the segments are reversed, and they are joined with `|`.
3. It sets the window caption to that caption plus the marker. Then it
   copies the un-marked caption into the `ShortTitle`, `Title` and `ToolTip`
   properties of the dock view's title object, which it reaches through
   reflection.

All of this for one window sits inside a `try { … } catch { }`.

The model is written as pure functions over immutable values:

- `text.dfy` (module `Text`) holds the string algebra: `Split`, `Join`,
  `Reverse`, ordinal `EndsWith`, and `Derive`, the caption derivation.
- `windows.dfy` (module `Windows`) holds the host objects. A window has a
  kind, a caption, what its hierarchy yields as its first element (`Root`)
  and what reflection finds for its dock view (`DockProbe`). The title object
  has three optional slots. Each slot records whether it has a setter.
  A reflection lookup that returns null, or a property whose value is null,
  is an explicit alternative of these datatypes.
- `rename.dfy` (module `Rename`) holds the command. `ProcessWindow` is the
  body of the per-window `try`, and `Propagate` is its dock-view part.
  `WriteSlots` is the loop over the three title slots. `Loop` is the
  loop over the windows for any per-window body, and `RenamePass` is that
  loop with `ProcessWindow` as the body. `Execute` is the whole command. Each exception the
  code can raise is an explicit outcome: `Renamed`, `Skipped`, or
  `Failed(stage)`. The stage says where the work stopped.
- `properties.dfy` (module `Properties`) holds the lemmas that relate
  several calls: the outcome of each kind of failure, idempotence, and the
  independence of windows.

Three consequences of the code are worth spelling out:

- A missing or read-only title field is not skipped on its own. For a
  missing field, `GetProperty(name)` returns null and the `SetValue` call at
  line 147 throws; a property without a setter throws there too. That
  abandons the later fields of the loop at lines 145-148, while the earlier
  fields stay written. `SlotFailureStopsLaterWrites` states this.
- A processed caption can end with two spaces. The marker is appended to
  whatever `Derive` yields, and a root name whose first segment ends with a
  space, such as `"a .b"`, derives `"b|a "`, so the window caption becomes
  `"b|a  "`. `MarkerCanDouble` states this. A later pass still skips the
  window, so the caption never grows.
- Only a `DockViewElement` *value* of null is a normal branch. A missing
  `DockViewElement` *property* makes `GetProperty` return null, and the
  `GetValue` call at line 132 throws. The same holds one level down for the
  `Title` property at lines 138-139. Either failure comes after the caption
  write at line 128, so the marked caption stays.

## Model

| member | source | states |
|---|---|---|
| Text.Split | xone/XOneRenameWindow.cs:126 | `Split(name, '.')` always has at least one segment, one more than the number of separators, and no segment contains the separator |
| Text.JoinSplit | xone/XOneRenameWindow.cs:126 | joining the segments of a split with the same separator gives back the original string, for every string |
| Text.Join | xone/XOneRenameWindow.cs:126 | `String.Join`: a non-empty list of segments joins to their total length plus one separator fewer than there are segments |
| Text.Reverse | xone/XOneRenameWindow.cs:126 | `Enumerable.Reverse`, built by moving the head behind the reversed tail: the result has the same length, and its element `i` is element `\|s\| - 1 - i` of the input |
| Text.ReverseReverse | xone/XOneRenameWindow.cs:126 | reversing twice gives the sequence back |
| Text.ReverseAppend | xone/XOneRenameWindow.cs:126 | reversing a concatenation reverses each part and swaps the parts |
| Text.SplitJoin | xone/XOneRenameWindow.cs:126 | splitting a join of a non-empty list of separator-free segments gives back exactly those segments |
| Text.Derive | xone/XOneRenameWindow.cs:126 | the derived caption is as long as the root name, because each `.` becomes one `\|`, and a name with no `.` is its own caption |
| Text.DeriveTwoSegments | xone/XOneRenameWindow.cs:126 | a name `x.y` with dot-free `x` and `y` derives the caption `y\|x` |
| Text.DeriveSegments | xone/XOneRenameWindow.cs:126 | when the name holds no `\|`, splitting the caption on `\|` gives the name's dot-segments in reverse order |
| Text.DeriveRoundTrip | xone/XOneRenameWindow.cs:126 | when the name holds no `\|`, splitting the caption on `\|`, reversing and joining with `.` recovers the name |
| Text.DeriveDotFree | xone/XOneRenameWindow.cs:126 | when the name holds no `\|`, the caption holds no `.` |
| Text.EndsWithSuffix | xone/XOneRenameWindow.cs:120 | ordinal `EndsWith`: a string ends with a suffix exactly when it is some prefix followed by that suffix |
| Windows.Marked | xone/XOneRenameWindow.cs:112-120 | a caption counts as processed exactly when it is non-empty and its last character is a space (code point 32), compared ordinally (see "Left out") |
| Windows.Set | xone/XOneRenameWindow.cs:147 | setting one title slot puts the value in that slot and leaves the other two slots as they were |
| Rename.WriteSlots | xone/XOneRenameWindow.cs:145-148 | over distinct field names (the source's three), the fields are written in list order up to the first one that is missing or read-only; the fields before it hold the value; that field, all later ones and any field not in the list are unchanged |
| Rename.Propagate | xone/XOneRenameWindow.cs:130-150 | the dock-view stage changes neither the caption nor the kind nor the root; it never reports a skip; any failure it reports comes after the caption write |
| Rename.ProcessWindow | xone/XOneRenameWindow.cs:118-153 | a window is skipped exactly when its caption ends with the marker, and is then unchanged; a failure before the caption write leaves it unchanged; afterwards the window either ends with the marker or is unchanged; kind and root are never changed |
| Rename.Visit | xone/XOneRenameWindow.cs:114-153 | a window of another kind is returned unchanged; any window keeps its kind and root and ends either carrying the marker or as it was |
| Rename.Explorers | xone/XOneRenameWindow.cs:114 | the enumerated windows are explorer windows drawn from the open windows, no more of them than there are open windows |
| Rename.ExplorersComplete | xone/XOneRenameWindow.cs:114 | a window is enumerated exactly when it is an open window whose `ObjectKind` equals the GUID at line 38, `{3AE79031-E1BC-11D0-8F78-00A0C9110057}` |
| Rename.ExplorersCount | xone/XOneRenameWindow.cs:114 | each explorer window is enumerated as many times as it occurs among the open windows, and no other window is enumerated at all |
| Rename.ExplorersAppend | xone/XOneRenameWindow.cs:114 | enumeration keeps host order: the windows enumerated from two lists are those of the first list followed by those of the second |
| Rename.RenamePassAppend | xone/XOneRenameWindow.cs:114-155 | the pass over two concatenated lists of windows equals the two passes side by side, for both the windows and the report |
| Rename.Loop | xone/XOneRenameWindow.cs:114-155 | for any `try` body, each explorer window ends as the body leaves it, whatever happens to the others; other windows are not looked at; the report holds the body's outcome for each explorer window, in enumeration order |
| Rename.RenamePass | xone/XOneRenameWindow.cs:114-155 | every window ends as its own processing leaves it, whatever happens to the others; non-explorer windows are not visited; the report holds one outcome per explorer window, in enumeration order |
| Rename.Execute | xone/XOneRenameWindow.cs:110-155 | every window that was already open ends as `Visit` leaves it, so unmarked explorer windows are processed and marked ones are kept as they were; the new scoped window is processed like any other; the report is that of the open windows followed by the new window's outcome when it is an explorer window |
| Properties.MarkedWindowUntouched | xone/XOneRenameWindow.cs:112-120 | an explorer window whose caption ends with the marker is skipped with its caption and dock-view slots untouched |
| Properties.MissingRootUntouched | xone/XOneRenameWindow.cs:122-126 | for an unmarked window with no `UIHierarchy`, no first element, or a first element that is not a hierarchy item, the window is unchanged and a failure before the caption write is reported |
| Properties.CaptionWrittenBeforeDockView | xone/XOneRenameWindow.cs:126-128 | for an unmarked window whose root item has a name, the caption becomes the derived caption plus the marker whatever the dock-view stage does; it then ends with the marker, and without a `\|` in the name its un-marked part reads back as the name |
| Properties.RenamedMeans | xone/XOneRenameWindow.cs:120-128 | a window reported renamed was unmarked, had a named root, and now carries the derived caption plus the marker |
| Properties.TitleSlotsSynchronised | xone/XOneRenameWindow.cs:137-149 | for an unmarked window with a named root, when the title object is reachable and all three slots are settable, all three hold the un-marked caption, the window is reported renamed with its title synchronised, and the caption is that value plus the marker |
| Properties.DockViewAbsent | xone/XOneRenameWindow.cs:130-143 | for an unmarked window with a named root, a null dock view or null title object leaves the window renamed with only its caption changed; a missing `DockViewElement` or `Title` property is a failure that keeps the new caption and the untouched dock view |
| Properties.SlotFailureStopsLaterWrites | xone/XOneRenameWindow.cs:145-153 | for an unmarked window with a named root and a reachable title object, when `f` is the first slot in the order ShortTitle, Title, ToolTip that is missing or read-only, processing reports `Failed(SlotUnwritable(f))`; the slots before `f` hold the un-marked caption, `f` and the later slots are as they were, and the marked caption stays |
| Properties.SynchronisedMeans | xone/XOneRenameWindow.cs:120-149 | a window reported renamed with its title synchronised was unmarked, had a named root and a reachable title object with all three slots settable, and all three slots now hold the un-marked caption |
| Properties.ProcessedOrUntouched | xone/XOneRenameWindow.cs:116-155 | after the pass each window either ends with the marker or is exactly as before |
| Properties.ProcessWindowIdempotent | xone/XOneRenameWindow.cs:112-128 | processing a window a second time changes nothing and never renames it again |
| Properties.TwoSegmentScenario | xone/XOneRenameWindow.cs:120-149 | an unmarked window rooted at `x.y` (dot-free `x` and `y`), with a reachable title object whose slots are all settable, is captioned `y\|x` plus a space, and `y\|x` is in all three slots (for example `MySolution.MyProject` becomes `MyProject\|MySolution `) |
| Properties.MarkerCanDouble | xone/XOneRenameWindow.cs:126-128 | for an unmarked window rooted at `x.y` (dot-free `x` and `y`), when the first of two dot-segments ends with a space (as in `a .b`), the derived caption already ends with the marker, and the renamed caption `y\|x` plus a space ends with two spaces |
| Properties.OtherKindsUntouched | xone/XOneRenameWindow.cs:38 | a window of any kind other than the explorer kind is left exactly as it was |
| Properties.RenamePassIdempotent | xone/XOneRenameWindow.cs:112-155 | running the pass over its own result changes no window and reports no rename |
| Properties.WindowsIndependent | xone/XOneRenameWindow.cs:116-155 | replacing one window before the pass does not change the result for any other window, so a failure inside one window's `try` cannot affect another |
| Properties.ScopedWindowRenamed | xone/XOneRenameWindow.cs:110-128 | the window the command opens is renamed to the derived caption plus the marker when it is an unmarked explorer window with a named root |

## Left out

- Command registration, the `Instance` singleton, `InitializeAsync` and `ServiceProvider` (lines 51-94) are host plumbing and are not modelled.
- `ThreadHelper.ThrowIfNotOnUIThread` and the UI-thread switch are concurrency plumbing. The model is sequential.
- The `NewScopedWindow` host command (line 110) is opaque. `Execute` takes the window it opens as a parameter, or `None`, and places it at the end of the window list. The host's real enumeration order is not known. By `WindowsIndependent` and `RenamePassAppend`, its position does not change any window's result.
- Reflection and COM enumeration (`GetType().GetProperty`, `GetValue`, `SetValue`, `UIHierarchyItems.GetEnumerator`) are replaced by the `Root`, `DockProbe`, `TitleProbe` and `Slot` alternatives that describe what those calls find.
- Exceptions are not modelled as control flow. Each one the code can raise on the modelled objects is a `Failed(stage)` outcome, and the swallowing `catch { }` is the pass moving on to the next window.
- Failures that are not structural are not modelled. Examples are a window closed concurrently, a throwing `Caption` setter, or a throwing property setter body. The model assumes every host call it does not list as failing succeeds.
- Three host calls lie outside the per-window `try`: `dte.ExecuteCommand` (line 110), the `ObjectKind` read in the `Where` filter (line 114), and the enumeration of `dte.Windows` itself (lines 114-116). A throw in any of them aborts the whole command, and no later window is processed. The model takes all three to succeed, so the window independence stated by `WindowsIndependent` covers only failures inside the `try` at lines 118-153.
- A null `Caption` and a null hierarchy-item `Name` are not modelled. The model's strings are never null.
- Windows.Marked: the model tests the marker with an ordinal suffix test, but `Caption.EndsWith(string)` at line 120 compares under the current culture. A culture-sensitive comparison ignores trailing characters the culture treats as ignorable. So the two agree except when the caption ends in such characters after a space. For example, with a soft hyphen (U+00AD) after the space, the code treats the caption as marked and skips the window, while the model renames it. Culture collation tables are not modelled.
- The outcome `Failed(RootItemMissing)` covers two cases. In the first, the hierarchy has no first element, whatever `Current` then does. In the second, the first element is not a `UIHierarchyItem`, so `String.Join` receives null. The code throws before the caption write in both cases, so the model does not tell them apart.

=== FILE: properties.dfy ===
/**
 Properties of the rename command: what a single window looks like after
 each way its processing can end, that a second run changes nothing, and
 that windows do not influence one another.
 */
module Properties {
  import opened Text
  import opened Windows
  import opened Rename

  // ---------------------------------------------------------------------
  // One window
  // ---------------------------------------------------------------------

  /** An explorer window whose caption already ends with the marker is left
      exactly as it was, dock-view slots included. */
  lemma MarkedWindowUntouched(w: Window)
    requires Marked(w.caption)
    ensures ProcessWindow(w) == Step(w, Skipped)
  {
  }

  /** Without a usable hierarchy root nothing is written: the window keeps its
      caption and its dock view, and the failure is reported. */
  lemma MissingRootUntouched(w: Window)
    requires !Marked(w.caption)
    requires !w.root.Item?
    ensures ProcessWindow(w).window == w
    ensures ProcessWindow(w).outcome.Failed?
    ensures BeforeCaptionWrite(ProcessWindow(w).outcome.stage)
  {
  }

  /** Once the root name is known the caption is rewritten, whatever happens
      afterwards: the caption is the derived caption followed by the marker,
      it ends with the marker, and the un-marked part reads back as the name
      when the name holds no bar. */
  lemma CaptionWrittenBeforeDockView(w: Window)
    requires !Marked(w.caption)
    requires w.root.Item?
    ensures ProcessWindow(w).window.caption == Derive(w.root.name) + Marker
    ensures Marked(ProcessWindow(w).window.caption)
    ensures '|' !in w.root.name ==>
              Underive(ProcessWindow(w).window.caption[..|ProcessWindow(w).window.caption| - 1]) == w.root.name
    ensures ProcessWindow(w).outcome.Renamed? || !BeforeCaptionWrite(ProcessWindow(w).outcome.stage)
  {
    var c := ProcessWindow(w).window.caption;
    assert c[..|c| - 1] == Derive(w.root.name);
    if '|' !in w.root.name {
      DeriveRoundTrip(w.root.name);
    }
  }

  /** A renamed window is an explorer window that was not marked and had a
      named root; it now carries the derived caption plus the marker. */
  lemma RenamedMeans(w: Window)
    requires ProcessWindow(w).outcome.Renamed?
    ensures !Marked(w.caption) && w.root.Item?
    ensures ProcessWindow(w).window.caption == Derive(w.root.name) + Marker
  {
  }

  /** When the title object is reachable and all three slots can be set, all
      three end up holding the un-marked caption and the window is reported
      as renamed with its title synchronised; the marked caption differs from
      them only by the marker. */
  lemma TitleSlotsSynchronised(w: Window, t: DockTitle)
    requires !Marked(w.caption) && w.root.Item?
    requires w.dock == Docked(TitleObject(t))
    requires forall f: TitleField :: Writable(t, f)
    ensures ProcessWindow(w).outcome == Renamed(true)
    ensures ProcessWindow(w).window.dock.Docked?
    ensures ProcessWindow(w).window.dock.view.TitleObject?
    ensures var t' := ProcessWindow(w).window.dock.view.t;
            && t'.shortTitle == Some(Slot(Derive(w.root.name), true))
            && t'.title == Some(Slot(Derive(w.root.name), true))
            && t'.toolTip == Some(Slot(Derive(w.root.name), true))
            && ProcessWindow(w).window.caption == t'.title.value.value + Marker
  {
    var c := Derive(w.root.name);
    var w1 := w.(caption := c + Marker);
    assert ProcessWindow(w) == Propagate(w1, c);
    var out := WriteSlots(t, TitleFields, c);
    if out.count < |TitleFields| {
      assert false;
    }
    assert Propagate(w1, c) == Step(w1.(dock := Docked(TitleObject(out.title))), Renamed(true));
    TitleWritePositions(t, c);
  }

  /** When the dock view itself, or its title object, is missing or null the
      caption still carries the rename: a null object means the title is
      simply not synchronised; a missing property is a failure that leaves
      the new caption in place and the dock view as it was. */
  lemma DockViewAbsent(w: Window)
    requires !Marked(w.caption) && w.root.Item?
    requires !(w.dock.Docked? && w.dock.view.TitleObject?)
    ensures ProcessWindow(w).window == w.(caption := Derive(w.root.name) + Marker)
    ensures w.dock == NoDockProperty ==> ProcessWindow(w).outcome == Failed(DockViewUnreachable)
    ensures w.dock == DockNull ==> ProcessWindow(w).outcome == Renamed(false)
    ensures w.dock == Docked(NoTitleProperty) ==> ProcessWindow(w).outcome == Failed(TitleUnreachable)
    ensures w.dock == Docked(TitleNull) ==> ProcessWindow(w).outcome == Renamed(false)
  {
    var c := Derive(w.root.name);
    assert ProcessWindow(w) == Propagate(w.(caption := c + Marker), c);
  }

  /** Writing the three title slots in order, read by slot position: the
      slots before the stopping point were writable and hold the value, the
      others are as they were. */
  lemma TitleWritePositions(t: DockTitle, v: string)
    ensures var out := WriteSlots(t, TitleFields, v);
            && (forall g :: Position(g) < out.count ==> Writable(t, g) && Get(out.title, g) == Some(Slot(v, true)))
            && (forall g :: Position(g) >= out.count ==> Get(out.title, g) == Get(t, g))
  {
    var out := WriteSlots(t, TitleFields, v);
    forall g ensures Get(out.title, g) == (if Position(g) < out.count then Some(Slot(v, true)) else Get(t, g)) {
      assert TitleFields[Position(g)] == g;
    }
  }

  /** A title slot that is missing or read-only stops the remaining writes:
      when `f` is the first slot in the order ShortTitle, Title, ToolTip that
      cannot be set, processing reports that slot; the slots before it hold
      the un-marked caption, `f` and the later slots are as they were, and the
      marked caption written earlier stays. */
  lemma SlotFailureStopsLaterWrites(w: Window, t: DockTitle, f: TitleField)
    requires !Marked(w.caption) && w.root.Item?
    requires w.dock == Docked(TitleObject(t))
    requires !Writable(t, f)
    requires forall g :: Position(g) < Position(f) ==> Writable(t, g)
    ensures ProcessWindow(w).outcome == Failed(SlotUnwritable(f))
    ensures ProcessWindow(w).window.caption == Derive(w.root.name) + Marker
    ensures ProcessWindow(w).window.dock.Docked?
    ensures ProcessWindow(w).window.dock.view.TitleObject?
    ensures forall g :: Position(g) < Position(f) ==>
              Get(ProcessWindow(w).window.dock.view.t, g) == Some(Slot(Derive(w.root.name), true))
    ensures forall g :: Position(g) >= Position(f) ==>
              Get(ProcessWindow(w).window.dock.view.t, g) == Get(t, g)
  {
    var c := Derive(w.root.name);
    var w1 := w.(caption := c + Marker);
    assert ProcessWindow(w) == Propagate(w1, c);
    var out := WriteSlots(t, TitleFields, c);
    TitleWritePositions(t, c);
    if out.count != Position(f) {
      assert false;
    }
    assert Propagate(w1, c) == Step(w1.(dock := Docked(TitleObject(out.title))), Failed(SlotUnwritable(f)));
  }

  /** The converse of `TitleSlotsSynchronised`: a window reported renamed with
      its title synchronised was unmarked, had a named root and a reachable
      title object whose three slots were all settable, and those slots now
      hold the un-marked caption. */
  lemma SynchronisedMeans(w: Window)
    requires ProcessWindow(w).outcome == Renamed(true)
    ensures !Marked(w.caption) && w.root.Item?
    ensures w.dock.Docked? && w.dock.view.TitleObject?
    ensures forall f :: Writable(w.dock.view.t, f)
    ensures ProcessWindow(w).window.dock.Docked? && ProcessWindow(w).window.dock.view.TitleObject?
    ensures forall f :: Get(ProcessWindow(w).window.dock.view.t, f) == Some(Slot(Derive(w.root.name), true))
  {
    var c := Derive(w.root.name);
    var w1 := w.(caption := c + Marker);
    assert ProcessWindow(w) == Propagate(w1, c);
    var t := w.dock.view.t;
    var out := WriteSlots(t, TitleFields, c);
    assert out.count == |TitleFields|;
    TitleWritePositions(t, c);
  }

  /** After the pass every window either carries the marker or is exactly as
      it was before. */
  lemma ProcessedOrUntouched(ws: seq<Window>)
    ensures forall i :: 0 <= i < |ws| ==>
              Marked(RenamePass(ws).windows[i].caption) || RenamePass(ws).windows[i] == ws[i]
  {
  }

  /** Processing a window a second time changes nothing: a window that was
      written to now carries the marker and is skipped; one that failed
      before any write fails the same way again. */
  lemma ProcessWindowIdempotent(w: Window)
    ensures ProcessWindow(ProcessWindow(w).window).window == ProcessWindow(w).window
    ensures !ProcessWindow(ProcessWindow(w).window).outcome.Renamed?
  {
  }

  /** A window rooted at a two-segment name `x.y` (such as
      "MySolution.MyProject"), whose dock-view title slots can all be set,
      ends up captioned `y|x` plus the marker ("MyProject|MySolution "), with
      `y|x` in each of its three title slots. */
  lemma TwoSegmentScenario(w: Window, x: string, y: string, t: DockTitle)
    requires '.' !in x && '.' !in y
    requires !Marked(w.caption) && w.root == Item(x + "." + y)
    requires w.dock == Docked(TitleObject(t))
    requires forall f: TitleField :: Writable(t, f)
    ensures var s := Some(Slot(y + "|" + x, true));
            ProcessWindow(w) ==
              Step(w.(caption := y + "|" + x + " ", dock := Docked(TitleObject(DockTitle(s, s, s)))),
                   Renamed(true))
  {
    DeriveTwoSegments(x, y);
    TitleSlotsSynchronised(w, t);
    var s := Some(Slot(y + "|" + x, true));
    assert ProcessWindow(w).window.dock.view.t == DockTitle(s, s, s);
  }

  /** A root name whose first segment ends with a space (such as "a .b")
      yields a derived caption that already ends with the marker, so the
      renamed caption ends with two spaces, not exactly one. */
  lemma MarkerCanDouble(w: Window, x: string, y: string)
    requires '.' !in x && '.' !in y && |x| > 0 && x[|x| - 1] == ' '
    requires !Marked(w.caption) && w.root == Item(x + "." + y)
    ensures Marked(Derive(w.root.name))
    ensures ProcessWindow(w).window.caption == y + "|" + x + " "
    ensures EndsWith(ProcessWindow(w).window.caption, "  ")
  {
    DeriveTwoSegments(x, y);
    var c := y + "|" + x + " ";
    assert c[|c| - 2..] == "  ";
    assert (y + "|" + x)[|y + "|" + x| - 1..] == Marker;
  }

  // ---------------------------------------------------------------------
  // The whole pass
  // ---------------------------------------------------------------------

  /** Windows of any other kind are left exactly as they were. */
  lemma OtherKindsUntouched(ws: seq<Window>, i: nat)
    requires i < |ws| && !IsExplorer(ws[i])
    ensures RenamePass(ws).windows[i] == ws[i]
  {
  }

  /** Running the pass again over its own result changes no window and
      renames nothing. */
  lemma RenamePassIdempotent(ws: seq<Window>)
    ensures RenamePass(RenamePass(ws).windows).windows == RenamePass(ws).windows
    ensures forall k :: 0 <= k < |RenamePass(RenamePass(ws).windows).report| ==>
              !RenamePass(RenamePass(ws).windows).report[k].Renamed?
  {
    var once := RenamePass(ws).windows;
    var twice := RenamePass(once).windows;
    forall i | 0 <= i < |ws| ensures twice[i] == once[i] {
      ProcessWindowIdempotent(ws[i]);
    }
    forall k | 0 <= k < |RenamePass(once).report|
      ensures !RenamePass(once).report[k].Renamed?
    {
      var e := Explorers(once)[k];
      var i :| 0 <= i < |once| && once[i] == e;
      ProcessWindowIdempotent(ws[i]);
    }
  }

  /** Changing one window before the pass changes nothing about the result for
      any other window: a failure on one window does not reach another. */
  lemma WindowsIndependent(ws: seq<Window>, i: nat, v: Window, j: nat)
    requires i < |ws| && j < |ws| && i != j
    ensures RenamePass(ws[i := v]).windows[j] == RenamePass(ws).windows[j]
  {
  }

  /** Every unmarked explorer window with a named root is renamed by the
      command, including the window the command itself opens. */
  lemma ScopedWindowRenamed(current: seq<Window>, w: Window)
    requires IsExplorer(w) && !Marked(w.caption) && w.root.Item?
    ensures Execute(current, Some(w)).windows[|current|].caption == Derive(w.root.name) + Marker
  {
    CaptionWrittenBeforeDockView(w);
  }
}

=== FILE: rename.dfy ===
/**
 The rename command: every explorer window whose caption does not yet carry
 the marker gets the caption derived from its hierarchy root, followed by
 the marker, and the un-marked caption is copied into the dock-view title
 slots. Each window is handled on its own; a failure stops the work on
 that window only, keeping whatever was written before it.
 */
module Rename {
  import opened Text
  import opened Windows

  /** Where the work on a window stopped. */
  datatype Stage =
    | HierarchyMissing               // no `UIHierarchy` behind the window
    | RootItemMissing                // no first element, or not a hierarchy item
    | DockViewUnreachable            // no `DockViewElement` property
    | TitleUnreachable               // the dock view has no `Title` property
    | SlotUnwritable(field: TitleField) // that title slot is missing or read-only

  /** The stages reached before the caption is written. */
  predicate BeforeCaptionWrite(s: Stage)
  {
    s.HierarchyMissing? || s.RootItemMissing?
  }

  /** What happened to one explorer window. `titleSynced` tells whether a
      dock-view title object was found and all three slots were written. */
  datatype Outcome = Renamed(titleSynced: bool) | Skipped | Failed(stage: Stage)

  datatype Step = Step(window: Window, outcome: Outcome)

  /** The windows after the pass, in their original order, and one outcome per
      explorer window, in the order they were visited. */
  datatype Pass = Pass(windows: seq<Window>, report: seq<Outcome>)

  /** Result of writing title slots: the title object afterwards and how many
      fields of the list were written before the first failure. */
  datatype Written = Written(title: DockTitle, count: nat)

  /** Position of a field in the write order. */
  function Position(f: TitleField): (n: nat)
    ensures n < |TitleFields| && TitleFields[n] == f
  {
    match f
    case ShortTitle => 0
    case Title => 1
    case ToolTip => 2
  }

  /** Writes `v` into the (distinct) fields in list order, stopping at the first field
      that cannot be set: the fields before it hold `v`, that field and all
      after it are left as they were. */
  function WriteSlots(t: DockTitle, fields: seq<TitleField>, v: string): (r: Written)
    requires forall i, j :: 0 <= i < j < |fields| ==> fields[i] != fields[j]
    ensures r.count <= |fields|
    ensures forall j :: 0 <= j < r.count ==> Writable(t, fields[j])
    ensures r.count < |fields| ==> !Writable(t, fields[r.count])
    ensures forall j :: 0 <= j < r.count ==> Get(r.title, fields[j]) == Some(Slot(v, true))
    ensures forall j :: r.count <= j < |fields| ==> Get(r.title, fields[j]) == Get(t, fields[j])
    ensures forall f :: f !in fields ==> Get(r.title, f) == Get(t, f)
    decreases |fields|
  {
    if |fields| == 0 then Written(t, 0)
    else if !Writable(t, fields[0]) then Written(t, 0)
    else
      var rest := WriteSlots(Set(t, fields[0], v), fields[1..], v);
      Written(rest.title, rest.count + 1)
  }

  /** The part of the window's work after the caption has been written: look
      up the dock view, then its title object, then write the three slots. */
  function Propagate(w: Window, caption: string): (r: Step)
    ensures r.window.kind == w.kind && r.window.caption == w.caption && r.window.root == w.root
    ensures !r.outcome.Skipped?
    ensures r.outcome.Failed? ==> !BeforeCaptionWrite(r.outcome.stage)
  {
    match w.dock
    case NoDockProperty => Step(w, Failed(DockViewUnreachable))
    case DockNull => Step(w, Renamed(false))
    case Docked(NoTitleProperty) => Step(w, Failed(TitleUnreachable))
    case Docked(TitleNull) => Step(w, Renamed(false))
    case Docked(TitleObject(t)) =>
      var out := WriteSlots(t, TitleFields, caption);
      var w' := w.(dock := Docked(TitleObject(out.title)));
      if out.count == |TitleFields| then Step(w', Renamed(true))
      else Step(w', Failed(SlotUnwritable(TitleFields[out.count])))
  }

  /** The body of the per-window `try` block. */
  function ProcessWindow(w: Window): (r: Step)
    ensures r.window.kind == w.kind && r.window.root == w.root
    ensures r.outcome.Skipped? <==> Marked(w.caption)
    ensures r.outcome.Skipped? ==> r.window == w
    ensures r.outcome.Failed? && BeforeCaptionWrite(r.outcome.stage) ==> r.window == w
    ensures Marked(r.window.caption) || r.window == w
  {
    if Marked(w.caption) then Step(w, Skipped)
    else
      match w.root
      case NoHierarchy => Step(w, Failed(HierarchyMissing))
      case NoRootItem => Step(w, Failed(RootItemMissing))
      case NotAnItem => Step(w, Failed(RootItemMissing))
      case Item(name) =>
        var caption := Derive(name);
        var renamed := w.(caption := caption + Marker);
        assert Marked(renamed.caption) by {
          assert renamed.caption[|renamed.caption| - 1..] == Marker;
        }
        Propagate(renamed, caption)
  }

  /** What the pass leaves of a window: explorer windows are processed, all
      others are not looked at. Kind and root never change, and the window
      ends either carrying the marker or as it was. */
  function Visit(w: Window): (r: Window)
    ensures r.kind == w.kind && r.root == w.root
    ensures !IsExplorer(w) ==> r == w
    ensures Marked(r.caption) || r == w
  {
    if IsExplorer(w) then ProcessWindow(w).window else w
  }

  /** The windows the pass enumerates, in host order: only explorer windows,
      drawn from the open ones (that every explorer window is enumerated is
      `ExplorersComplete`). */
  function Explorers(ws: seq<Window>): (r: seq<Window>)
    ensures |r| <= |ws|
    ensures forall k :: 0 <= k < |r| ==> IsExplorer(r[k]) && r[k] in ws
  {
    if |ws| == 0 then []
    else if IsExplorer(ws[0]) then [ws[0]] + Explorers(ws[1..])
    else Explorers(ws[1..])
  }

  /** A window is enumerated exactly when it is an open explorer window. */
  lemma {:induction false} ExplorersComplete(ws: seq<Window>)
    ensures forall w :: w in Explorers(ws) <==> w in ws && IsExplorer(w)
    decreases |ws|
  {
    if |ws| != 0 {
      ExplorersComplete(ws[1..]);
      assert forall w :: w in ws <==> w == ws[0] || w in ws[1..];
    }
  }

  /** Each explorer window is enumerated as often as it occurs among the open
      windows; no other window is enumerated. */
  lemma {:induction false} ExplorersCount(ws: seq<Window>, w: Window)
    ensures multiset(Explorers(ws))[w] == if IsExplorer(w) then multiset(ws)[w] else 0
    decreases |ws|
  {
    if |ws| != 0 {
      assert ws == [ws[0]] + ws[1..];
      ExplorersCount(ws[1..], w);
    }
  }

  /** Enumeration keeps host order: the windows enumerated from two lists are
      those of the first list, then those of the second. */
  lemma {:induction false} ExplorersAppend(a: seq<Window>, b: seq<Window>)
    ensures Explorers(a + b) == Explorers(a) + Explorers(b)
    decreases |a|
  {
    if |a| == 0 {
      assert a + b == b;
    } else {
      assert (a + b)[0] == a[0];
      assert (a + b)[1..] == a[1..] + b;
      ExplorersAppend(a[1..], b);
    }
  }

  /** The loop over the explorer windows with its per-window `try`/`catch`,
      for a given `try` body: each explorer window ends as the body leaves
      it, whatever happened to the others, every other window is not looked
      at, and the report lists the body's outcome for each explorer window in
      enumeration order. */
  function Loop(ws: seq<Window>, body: Window -> Step): (r: Pass)
    ensures |r.windows| == |ws|
    ensures forall i :: 0 <= i < |ws| ==> r.windows[i] == if IsExplorer(ws[i]) then body(ws[i]).window else ws[i]
    ensures |r.report| == |Explorers(ws)|
    ensures forall k :: 0 <= k < |r.report| ==> r.report[k] == body(Explorers(ws)[k]).outcome
    decreases |ws|
  {
    if |ws| == 0 then Pass([], [])
    else
      var rest := Loop(ws[1..], body);
      if IsExplorer(ws[0]) then
        var s := body(ws[0]);
        assert Explorers(ws) == [ws[0]] + Explorers(ws[1..]);
        Pass([s.window] + rest.windows, [s.outcome] + rest.report)
      else
        assert Explorers(ws) == Explorers(ws[1..]);
        Pass([ws[0]] + rest.windows, rest.report)
  }

  /** The rename pass: the loop with `ProcessWindow` as its `try` body. Each
      window becomes what `Visit` makes of it, and the report holds one
      outcome per explorer window, in enumeration order. */
  function RenamePass(ws: seq<Window>): (r: Pass)
    ensures |r.windows| == |ws|
    ensures forall i :: 0 <= i < |ws| ==> r.windows[i] == Visit(ws[i])
    ensures |r.report| == |Explorers(ws)|
    ensures forall k :: 0 <= k < |r.report| ==> r.report[k] == ProcessWindow(Explorers(ws)[k]).outcome
  {
    Loop(ws, ProcessWindow)
  }

  /** The pass over two lists of windows is the two passes side by side. */
  lemma RenamePassAppend(a: seq<Window>, b: seq<Window>)
    ensures RenamePass(a + b) == Pass(RenamePass(a).windows + RenamePass(b).windows,
                                      RenamePass(a).report + RenamePass(b).report)
  {
    ExplorersAppend(a, b);
    var whole, left, right := RenamePass(a + b), RenamePass(a), RenamePass(b);
    assert whole.windows == left.windows + right.windows by {
      forall i | 0 <= i < |a + b| ensures whole.windows[i] == (left.windows + right.windows)[i] {
        if i < |a| {
          assert (a + b)[i] == a[i];
        } else {
          assert (a + b)[i] == b[i - |a|];
        }
      }
    }
    assert whole.report == left.report + right.report by {
      var e := Explorers(a + b);
      forall k | 0 <= k < |e| ensures whole.report[k] == (left.report + right.report)[k] {
        if k < |Explorers(a)| {
          assert e[k] == Explorers(a)[k];
        } else {
          assert e[k] == Explorers(b)[k - |Explorers(a)|];
        }
      }
    }
  }

  /** The command: the host opens a new scoped explorer window (given here as
      `scoped`, since the host decides what it looks like, or `None` when it
      opens nothing), which joins the end of the window list, and the rename
      pass runs over the whole list. Every window that was already open is
      visited like any other: an unmarked explorer window is processed, a
      marked one is kept as it was. The report is that of the open windows,
      followed by the new window's outcome when it is an explorer window. */
  function Execute(current: seq<Window>, scoped: Option<Window>): (r: Pass)
    ensures |r.windows| == |current| + (if scoped.Some? then 1 else 0)
    ensures forall i :: 0 <= i < |current| ==> r.windows[i] == Visit(current[i])
    ensures forall i :: 0 <= i < |current| && Marked(current[i].caption) ==> r.windows[i] == current[i]
    ensures scoped.Some? ==> r.windows[|current|] == Visit(scoped.value)
    ensures r.report == RenamePass(current).report +
                        (if scoped.Some? && IsExplorer(scoped.value) then [ProcessWindow(scoped.value).outcome] else [])
  {
    if scoped.Some? then
      RenamePassAppend(current, [scoped.value]);
      RenamePass(current + [scoped.value])
    else
      RenamePass(current)
  }
}

=== FILE: text.dfy ===
/**
 String algebra behind the window caption: `String.Split` on one
 separator character, `String.Join` with one separator character,
 `Enumerable.Reverse`, the ordinal `EndsWith` test, and the caption
 derivation `Join("|", Reverse(Split(name, '.')))` built from them.
 */
module Text {

  /** Number of occurrences of `c` in `s`. */
  function Count(s: string, c: char): nat
  {
    if |s| == 0 then 0 else (if s[0] == c then 1 else 0) + Count(s[1..], c)
  }

  /** `s.Split(c)`: the maximal runs of `s` between occurrences of `c`, empty
      runs included. There is always at least one segment, no segment holds
      the separator, and there is one segment more than there are separators. */
  function Split(s: string, c: char): (r: seq<string>)
    ensures |r| == Count(s, c) + 1
    ensures forall i :: 0 <= i < |r| ==> c !in r[i]
    decreases |s|
  {
    if |s| == 0 then [""]
    else
      var rest := Split(s[1..], c);
      if s[0] == c then [""] + rest
      else [[s[0]] + rest[0]] + rest[1..]
  }

  /** `String.Join(c, segs)`: the segments with one `c` between neighbours,
      so a non-empty list joins to its total length plus one separator fewer
      than it has segments. */
  function Join(segs: seq<string>, c: char): (r: string)
    ensures |segs| >= 1 ==> |r| == Size(segs) + |segs| - 1
  {
    if |segs| == 0 then ""
    else if |segs| == 1 then segs[0]
    else segs[0] + [c] + Join(segs[1..], c)
  }

  /** `Enumerable.Reverse`: the head goes last, behind the reversed tail.
      Element `i` of the result is element `|s| - 1 - i` of the input. */
  function Reverse<T>(s: seq<T>): (r: seq<T>)
    ensures |r| == |s|
    ensures forall i :: 0 <= i < |s| ==> r[i] == s[|s| - 1 - i]
    decreases |s|
  {
    if |s| == 0 then [] else Reverse(s[1..]) + [s[0]]
  }

  /** Ordinal `s.EndsWith(suffix)` (see `EndsWithSuffix`). */
  predicate EndsWith(s: string, suffix: string)
  {
    |suffix| <= |s| && s[|s| - |suffix|..] == suffix
  }

  /** Total length of the segments. */
  function Size(segs: seq<string>): nat
  {
    if |segs| == 0 then 0 else |segs[0]| + Size(segs[1..])
  }

  /** The caption of an explorer window rooted at `name`: the dot-separated
      segments of the name, last first, joined with a bar
      ("Solution.App.Core" becomes "Core|App|Solution"). Each dot becomes one
      bar, so the length is kept, and a name without a dot is its own
      caption. */
  function Derive(name: string): (r: string)
    ensures |r| == |name|
    ensures '.' !in name ==> r == name
  {
    var segs := Split(name, '.');
    JoinSplit(name, '.');
    SizeReverse(segs);
    SplitUndivided(name, '.');
    Join(Reverse(segs), '|')
  }

  /** The inverse reading of a caption: bar-separated segments, last first,
      joined with a dot. */
  function Underive(caption: string): string
  {
    Join(Reverse(Split(caption, '|')), '.')
  }

  // ---------------------------------------------------------------------
  // Split / Join algebra
  // ---------------------------------------------------------------------

  /** Joining the pieces of a split puts the separators back: the split loses
      nothing. */
  lemma {:induction false} JoinSplit(s: string, c: char)
    ensures Join(Split(s, c), c) == s
    decreases |s|
  {
    if |s| != 0 {
      var rest := Split(s[1..], c);
      JoinSplit(s[1..], c);
      assert s == [s[0]] + s[1..];
      if s[0] == c {
        JoinEmptyFirst(rest, c);
      } else {
        JoinExtendFirst(s[0], rest, c);
      }
    }
  }

  /** An empty first segment puts a separator in front of the join of the
      rest. */
  lemma JoinEmptyFirst(segs: seq<string>, c: char)
    requires |segs| >= 1
    ensures Join([""] + segs, c) == [c] + Join(segs, c)
  {
    assert ([""] + segs)[1..] == segs;
  }

  /** A character put in front of the first segment is put in front of the
      join. */
  lemma JoinExtendFirst(ch: char, segs: seq<string>, c: char)
    requires |segs| >= 1
    ensures Join([[ch] + segs[0]] + segs[1..], c) == [ch] + Join(segs, c)
  {
    var t := [[ch] + segs[0]] + segs[1..];
    if |segs| > 1 {
      assert t[1..] == segs[1..];
    }
  }

  /** A string free of the separator is a single segment. */
  lemma {:induction false} SplitWithoutSeparator(s: string, c: char)
    requires c !in s
    ensures Split(s, c) == [s]
    decreases |s|
  {
    if |s| != 0 {
      assert c !in s[1..] by {
        forall k | 0 <= k < |s[1..]| ensures s[1..][k] != c {
          assert s[1..][k] == s[k + 1];
        }
      }
      SplitWithoutSeparator(s[1..], c);
      assert s == [s[0]] + s[1..];
    }
  }

  /** The same, for any string: one without the separator splits into
      itself. */
  lemma SplitUndivided(s: string, c: char)
    ensures c !in s ==> Split(s, c) == [s]
  {
    if c !in s {
      SplitWithoutSeparator(s, c);
    }
  }

  /** Splitting a separator-free segment followed by the separator yields
      that segment, then the split of the remainder. */
  lemma {:induction false} SplitAfterSegment(x: string, c: char, y: string)
    requires c !in x
    ensures Split(x + [c] + y, c) == [x] + Split(y, c)
    decreases |x|
  {
    var s := x + [c] + y;
    if |x| == 0 {
      assert s == [c] + y;
      assert s[1..] == y;
    } else {
      var x' := x[1..];
      assert c !in x' by {
        forall k | 0 <= k < |x'| ensures x'[k] != c {
          assert x'[k] == x[k + 1];
        }
      }
      assert s[0] == x[0];
      assert s[1..] == x' + [c] + y;
      SplitAfterSegment(x', c, y);
      var rest := Split(s[1..], c);
      assert rest == [x'] + Split(y, c);
      assert [x[0]] + x' == x;
      assert rest[1..] == Split(y, c);
    }
  }

  /** Splitting a join of separator-free segments gives the segments back. */
  lemma {:induction false} SplitJoin(segs: seq<string>, c: char)
    requires |segs| >= 1
    requires forall i :: 0 <= i < |segs| ==> c !in segs[i]
    ensures Split(Join(segs, c), c) == segs
    decreases |segs|
  {
    if |segs| == 1 {
      SplitWithoutSeparator(segs[0], c);
    } else {
      SplitJoin(segs[1..], c);
      SplitAfterSegment(segs[0], c, Join(segs[1..], c));
      assert segs == [segs[0]] + segs[1..];
    }
  }

  /** Reversing twice gives the sequence back. */
  lemma {:induction false} ReverseReverse<T>(s: seq<T>)
    ensures Reverse(Reverse(s)) == s
  {
  }

  /** Reversing a concatenation reverses each part and swaps them. */
  lemma ReverseAppend<T>(a: seq<T>, b: seq<T>)
    ensures Reverse(a + b) == Reverse(b) + Reverse(a)
  {
  }

  /** A string ends with `suffix` exactly when it is some prefix followed by
      `suffix`. */
  lemma EndsWithSuffix(s: string, suffix: string)
    ensures EndsWith(s, suffix) <==> exists p :: s == p + suffix
  {
    if EndsWith(s, suffix) {
      assert s == s[..|s| - |suffix|] + suffix;
    }
  }

  /** Every character of a joined string comes from a segment or is the
      separator. */
  lemma {:induction false} JoinChars(segs: seq<string>, c: char, d: char)
    requires d != c
    requires forall i :: 0 <= i < |segs| ==> d !in segs[i]
    ensures d !in Join(segs, c)
    decreases |segs|
  {
    if |segs| > 1 {
      JoinChars(segs[1..], c, d);
      var j := Join(segs[1..], c);
      assert Join(segs, c) == segs[0] + [c] + j;
      assert d !in segs[0];
    }
  }

  /** Every character of a segment occurs in the split string. */
  lemma {:induction false} SplitChars(s: string, c: char, d: char)
    requires d !in s
    ensures forall i :: 0 <= i < |Split(s, c)| ==> d !in Split(s, c)[i]
    decreases |s|
  {
    if |s| != 0 {
      assert d !in s[1..] by {
        forall k | 0 <= k < |s[1..]| ensures s[1..][k] != d {
          assert s[1..][k] == s[k + 1];
        }
      }
      SplitChars(s[1..], c, d);
    }
  }

  // ---------------------------------------------------------------------
  // Lengths
  // ---------------------------------------------------------------------

  lemma {:induction false} SizeAppend(a: seq<string>, b: seq<string>)
    ensures Size(a + b) == Size(a) + Size(b)
    decreases |a|
  {
    if |a| == 0 {
      assert a + b == b;
    } else {
      assert (a + b)[0] == a[0];
      assert (a + b)[1..] == a[1..] + b;
      SizeAppend(a[1..], b);
    }
  }

  lemma {:induction false} SizeReverse(s: seq<string>)
    ensures Size(Reverse(s)) == Size(s)
    decreases |s|
  {
    if |s| != 0 {
      var r := Reverse(s);
      assert r == Reverse(s[1..]) + [s[0]];
      SizeReverse(s[1..]);
      SizeAppend(Reverse(s[1..]), [s[0]]);
      assert Size([s[0]]) == |s[0]|;
    }
  }

  // ---------------------------------------------------------------------
  // Caption derivation
  // ---------------------------------------------------------------------

  /** The derived caption is the reversed dot-segments joined with a bar, and
      splitting it on the bar recovers exactly those segments when the name
      holds no bar of its own. */
  lemma DeriveSegments(name: string)
    requires '|' !in name
    ensures Split(Derive(name), '|') == Reverse(Split(name, '.'))
  {
    var segs := Reverse(Split(name, '.'));
    SplitChars(name, '.', '|');
    SplitJoin(segs, '|');
  }

  /** Reading a caption back: without a bar in the name, the bar-split of the
      caption reversed and joined with dots is the original name. */
  lemma DeriveRoundTrip(name: string)
    requires '|' !in name
    ensures Underive(Derive(name)) == name
  {
    var segs := Split(name, '.');
    DeriveSegments(name);
    ReverseReverse(segs);
    JoinSplit(name, '.');
  }

  /** A two-segment name swaps its segments around a bar
      ("MySolution.MyProject" becomes "MyProject|MySolution"). */
  lemma DeriveTwoSegments(x: string, y: string)
    requires '.' !in x && '.' !in y
    ensures Derive(x + "." + y) == y + "|" + x
  {
    assert x + "." + y == x + ['.'] + y;
    SplitAfterSegment(x, '.', y);
    SplitWithoutSeparator(y, '.');
    assert Split(x + "." + y, '.') == [x, y];
    assert Reverse([x, y]) == [y, x];
    assert Join([y, x], '|') == y + ['|'] + x;
  }

  /** A derived caption holds no dot when the name holds no bar. */
  lemma DeriveDotFree(name: string)
    requires '|' !in name
    ensures '.' !in Derive(name)
  {
    var segs := Reverse(Split(name, '.'));
    forall i | 0 <= i < |segs| ensures '.' !in segs[i] {
      assert segs[i] == Split(name, '.')[|segs| - 1 - i];
    }
    JoinChars(segs, '|', '.');
  }
}

=== FILE: windows.dfy ===
/**
 The host objects the rename command reads and writes, reduced to the
 parts it touches. What the command finds through reflection
 (`GetProperty(...)` returning null or a property whose value is null) is
 spelled out as explicit alternatives instead of being probed at run time.
 */
module Windows {
  import opened Text

  datatype Option<+T> = None | Some(value: T)

  /** The object kind that marks a solution/project explorer window. */
  const ExplorerKind: string := "{3AE79031-E1BC-11D0-8F78-00A0C9110057}"

  /** The trailing marker of a processed caption: the string of the single
      character with code point 32, a plain space. */
  const Marker: string := [32 as char]

  /** A caption carrying the marker has been processed before: its last
      character is a space. */
  function Marked(caption: string): (b: bool)
    ensures b <==> |caption| > 0 && caption[|caption| - 1] == ' '
  {
    EndsWith(caption, Marker)
  }

  /** What the window's `Object` yields as the first element of its
      hierarchy. */
  datatype Root =
    | NoHierarchy        // `Object` is not a `UIHierarchy`: the cast yields null
    | NoRootItem         // the hierarchy has no first element to move to
    | NotAnItem          // the first element is not a `UIHierarchyItem`
    | Item(name: string) // the first element, a hierarchy item with its name

  /** One property slot of the dock-view title object. */
  datatype Slot = Slot(value: string, settable: bool)

  /** The three title-like slots; `None` stands for a slot whose name is not
      a public property (instance or static) of the title object's type, so that
      `GetProperty(name)` finds nothing. */
  datatype DockTitle = DockTitle(shortTitle: Option<Slot>, title: Option<Slot>, toolTip: Option<Slot>)

  /** The names under which the slots are looked up, in the order they are
      written. */
  datatype TitleField = ShortTitle | Title | ToolTip

  const TitleFields: seq<TitleField> := [ShortTitle, Title, ToolTip]

  /** What reading the `Title` property of the dock view finds. */
  datatype TitleProbe =
    | NoTitleProperty          // the dock view's type has no public `Title` property
    | TitleNull                // `Title` is there and holds null
    | TitleObject(t: DockTitle)

  /** What reading the non-public `DockViewElement` property of the window
      finds. The lookup asks only for non-public instance properties, so a
      public property of that name is not found either. */
  datatype DockProbe =
    | NoDockProperty           // no non-public instance property of that name
    | DockNull                 // the property is there and holds null
    | Docked(view: TitleProbe)

  /** An open top-level window of the host. */
  datatype Window = Window(kind: string, caption: string, root: Root, dock: DockProbe)

  /** The filter of the pass: only the window's kind is compared, ordinally,
      with the explorer GUID. */
  predicate IsExplorer(w: Window)
  {
    w.kind == ExplorerKind
  }

  function Get(t: DockTitle, f: TitleField): Option<Slot>
  {
    match f
    case ShortTitle => t.shortTitle
    case Title => t.title
    case ToolTip => t.toolTip
  }

  /** Setting `f` succeeds only on a property that exists and has a setter,
      whatever value it currently holds. */
  predicate Writable(t: DockTitle, f: TitleField)
  {
    Get(t, f).Some? && Get(t, f).value.settable
  }

  /** `SetValue` on the slot `f`: the slot now holds `v`, every other slot is
      as it was. */
  function Set(t: DockTitle, f: TitleField, v: string): (r: DockTitle)
    requires Writable(t, f)
    ensures Get(r, f) == Some(Slot(v, true))
    ensures forall g :: g != f ==> Get(r, g) == Get(t, g)
  {
    match f
    case ShortTitle => t.(shortTitle := Some(Slot(v, true)))
    case Title => t.(title := Some(Slot(v, true)))
    case ToolTip => t.(toolTip := Some(Slot(v, true)))
  }
}
